=== FILE: README.md ===
# Speed: a model of the stream meter's core

Speed copies standard input to standard output unchanged while a second thread
reports throughput on standard error. A copier thread reads chunks of up to
256 KiB, adds each read's length to a mutex-guarded byte counter, and writes
the chunk. A reporting thread wakes every 40 ms. On each wake it snapshots the
counter into a 25-slot sliding window (25 slots of 40 ms make 1000 ms; the
oldest snapshot is 24 cadences, 960 ms, older than the newest). It advances the
window a second time when more than one cadence of time has been lost to its
own work. It then prints the total, the bytes counted since the window's
oldest snapshot (the "current" rate, shown per second) and the elapsed time.

This Dafny project models the sequential logic of that program:

- `config.dfy` (`Config`): the size, buffer and cadence constants.
- `uint64.dfy` (`UInt64`): `unsigned long long` arithmetic with explicit wrap-around modulo 2^64.
- `window.dfy` (`Window`): the shift-and-append of the sliding window and its FIFO behaviour.
- `format.dfy` (`Format`): the size formatter's unit and divisor selection, and the split of an elapsed time into `H:MM:SS.mmm` fields.
- `sampler.dfy` (`Sampler`): one reporting iteration as a state step over the window and the lost-time accumulator, with clock readings as parameters. It also holds a `Meter` machine. That machine interleaves counter increments with reporting iterations, which is how the mutex orders them. On it the window invariant is proved: the window stays sorted and bounded by the counter, so the current rate never wraps as long as the counter has not passed 2^64.
- `copier.dfy` (`Copier`): the copy loop, run sequentially over oracle results for reads and writes.

Modelling choices:

- The counter and clock values are `U64`. Subtraction and addition wrap as in C, so "never underflows" is a proved fact rather than an artefact of unbounded integers.
- Reads are a sequence of chunks. Running out of chunks stands for `fread` returning 0 at end of input.
- Writes are a sequence of reported counts, each at most the chunk length, which is what `fwrite` guarantees. A short write is taken to have written the first `written` bytes of the chunk.
- The elapsed time is an integer number of milliseconds. The whole seconds are that count divided by 1000, and the millisecond field is the count modulo 1000.
- The drift accumulator sums the cost of every iteration until the sum exceeds 40 ms, with strict `>`. The trigger is that accumulated sum, not the cost of the single previous iteration, although the C comment at the skip says "if we lost one interval". After a skip, the accumulator restarts from zero and then receives the current iteration's cost.
- A wall clock that steps backwards during an iteration makes the unsigned cost wrap modulo 2^64. Let `kept` be the loss kept after this iteration's reset: zero when the iteration skips, the accumulated loss otherwise. A step back of `d` ms with `d <= kept` only shrinks the accumulator. A larger step back wraps it to 2^64 + kept − d, and the next iteration skips exactly when `d < 2^64 − 40 + kept` (`Sampler.ClockStepBack`).
- The current rate is the counter minus the oldest snapshot left in the window after the shift. With 25 slots that snapshot is 24 cadences old (23 after a skip), so for a steady stream the displayed "/s" value is 24/25 of the true rate (`Sampler.RateCoversTwentyFourCadences`). The model keeps this as written.
- Sizes are compared against decimal thresholds but divided by binary magnitudes. The model keeps this as written. `Format.BandStartsBelowOne` states its visible effect: the smallest size in each unit above KiB displays as a value below one.

## Model

| member | source | states |
|---|---|---|
| Config.WindowSpansOneSecond | src/speed.c:27-29 | The window has 1000 / 40 = 25 slots, and 25 slots times the 40 ms cadence make 1000 ms. |
| Config.BufferIsQuarterMiB | src/speed.c:19-25 | The transfer buffer is 256 KiB = 262,144 bytes, a quarter of a MiB. |
| UInt64.Add | src/speed.c:137 | Adding to an unsigned 64-bit counter is exact below 2^64 and wraps once past it. |
| UInt64.Sub | src/speed.c:119 | Unsigned subtraction is exact when the subtrahend is not larger; otherwise the result wraps to the difference plus 2^64. |
| UInt64.SubUndoesAdd | src/speed.c:129 | Wrapping subtraction and addition undo each other, so the wrapped arithmetic loses nothing. |
| Window.MoveAndAppend | src/speed.c:39-42 | The shift keeps the length, moves each slot's right neighbour into it, and puts the new value in the last slot. The result equals the reference FIFO append. |
| Window.AdvanceAllKeepsNewest | src/speed.c:39-42 | After any sequence of appends, the window is the newest `capacity` values of the initial contents followed by the appended values (FIFO order). |
| Window.WindowHoldsLastSnapshots | src/speed.c:92-105 | Once at least `capacity` snapshots have been appended, the window holds exactly the latest `capacity` snapshots in order. |
| Window.AdvanceAllConcat | src/speed.c:39-42 | Appending two histories in turn equals appending their concatenation. |
| Window.AdvanceKeepsOrder | src/speed.c:102-107 | Appending a value at least as large as every entry keeps a sorted window sorted, and that value then bounds every entry. |
| Format.BinaryMagnitudesArePowers | src/speed.c:19-22 | The divisors KiB, MiB, GiB and TiB are 1024 to the powers 1 through 4. |
| Format.FormatSize | src/speed.c:54-59 | The chosen unit is the largest one whose decimal threshold (10^6, 10^9, 10^12) the size has reached. The divisor is 1024 to the power of the unit's rank plus one. |
| Format.FormatSizeBands | src/speed.c:54-59 | A unit is chosen if and only if the size lies in that unit's decimal band, so exactly one unit applies. |
| Format.FormatSizeMonotone | src/speed.c:54-59 | A larger size never selects a smaller unit. |
| Format.FormatSizeBoundaries | src/speed.c:54-59 | 999,999 bytes select KiB/1024 and 1,000,000 select MiB/1024². The same boundary holds at 10^9 for GiB and at 10^12 for TiB. |
| Format.BandStartsBelowOne | src/speed.c:15-22 | Each decimal threshold above KiB is smaller than its unit's binary divisor, so the smallest size in the band displays below one. |
| Format.FormatTime | src/speed.c:61-63 | Minutes and seconds are below 60 and milliseconds below 1000. Hours·3600 + minutes·60 + seconds equals the whole seconds, and all fields together give back the millisecond count. |
| Format.FormatTimeUnique | src/speed.c:61-63 | Every canonical `H:MM:SS.mmm` value is the formatting of exactly the millisecond count it denotes, so the split is a bijection. |
| Format.FormatTimeExample | src/speed.c:63 | 3,661.5 seconds split into 1:01:01.500. |
| Sampler.Step | src/speed.c:97-129 | The window keeps its length. If more than 40 ms has been lost, it advances twice with the same snapshot; otherwise it advances once. The accumulator resets to zero on a skip and is then increased by the iteration's cost. The current rate is the snapshot minus the entry one slot into the old window, or two slots on a skip, modulo 2^64. The report carries the snapshot and the elapsed time. |
| Sampler.RateCoversTwentyFourCadences | src/speed.c:104-125 | For a stream of exactly b bytes per cadence, the current rate is 24·b: it spans 24 cadences (960 ms), although it is displayed per second. |
| Sampler.SkipThreshold | src/speed.c:106-109 | Exactly 40 ms lost advances the window once; 41 ms advances it twice. |
| Sampler.ClockStepBack | src/speed.c:129 | When the end time is earlier than the start time by d ms, the next iteration skips if and only if d exceeds the loss kept so far and the wrapped accumulator 2^64 + kept − d is still above the 40 ms cadence. |
| Sampler.Render | src/speed.c:111-122 | The total and the current rate are shown in TiB exactly when they reach 10^12 bytes and in KiB exactly when below 10^6. The elapsed fields are canonical and add up to the elapsed milliseconds. |
| Sampler.Appended | src/speed.c:104-109 | An iteration appends its snapshot once, or twice on a skip, and appends nothing else. |
| Sampler.StepAppends | src/speed.c:104-109 | An iteration's window is the previous window advanced, first in first out, by the snapshots it appends. |
| Sampler.Apply | src/speed.c:100-109 | A counter increment changes only the counter and, without overflow, adds exactly its bytes. A reporting iteration leaves the counter unchanged and advances the window by the counter's value, once or twice on a skip. |
| Sampler.Initial | src/speed.c:92-93 | The reporting loop starts with a 25-slot window of zeros and no time lost. |
| Sampler.Run | src/speed.c:95-131 | Any mutex-ordered interleaving of reporting iterations and copier increments (src/speed.c:135-144) keeps the window at exactly 25 slots. |
| Sampler.RunAppendsSnapshots | src/speed.c:92-109 | After any interleaving, the window is its start contents advanced by every snapshot the run took, in order. |
| Sampler.RunWindowHoldsLastSnapshots | src/speed.c:92-109 | Once a run has taken at least 25 snapshots, the window holds exactly the last 25 of them, oldest first; a skip counts its snapshot twice. |
| Sampler.InitialInvariant | src/speed.c:92-93 | The all-zero start window is sorted and bounded by any counter value. |
| Sampler.ApplyKeepsInvariant | src/speed.c:102-109 | Each increment and each iteration, single or double advance, keeps the window sorted and bounded by the counter. |
| Sampler.RunKeepsInvariant | src/speed.c:92-119 | Along any interleaving without counter overflow, the counter grows by exactly the bytes copied and the window invariant holds throughout. |
| Sampler.CurrentRateNeverWraps | src/speed.c:119 | Under the invariant, the current rate equals the exact difference between the snapshot and the oldest window entry, and does not exceed the total. |
| Sampler.NoUnderflowFromStart | src/speed.c:92-119 | From start-up, every reporting iteration of every overflow-free interleaving computes an exact, non-wrapped current rate. |
| Copier.Copy | src/speed.c:134-146 | The loop uses a prefix of the reads: at most all of them, and none only when the input is immediately exhausted. |
| Copier.CopyContinues | src/speed.c:136-144 | After a non-empty read that was written in full, the loop goes on with the next read, and the first chunk leads the output. |
| Copier.CopyCounts | src/speed.c:137 | The counter changes only by adding each read's length: it ends as the start value plus the lengths of the chunks read, modulo 2^64. |
| Copier.CopyStopReason | src/speed.c:140-144 | The loop fails if and only if its last write was short. On end of input, the last read was empty or the input ran out. Every earlier read was non-empty and written in full. |
| Copier.CopyOutput | src/speed.c:136-139 | The output is every chunk before the last read, followed by the part of the last chunk that its write reported. |
| Copier.StopsAt | src/speed.c:140-144 | The loop uses exactly the reads up to and including the first empty read or short write. |
| Copier.CounterNeverDecreases | src/speed.c:137 | Without overflow, the counter grows by exactly the bytes read and never decreases. |
| Copier.Passthrough | src/speed.c:134-146 | When every write is complete, the loop ends normally and its output is exactly the input stream. |
| Copier.PassthroughCounts | src/speed.c:136-139 | After a complete passthrough, the counter has grown by exactly the length of the input stream, modulo 2^64. |
| Copier.StopsAtFirstShortWrite | src/speed.c:136-143 | The first short write stops the loop after that read. The output is the earlier chunks plus the written part of this chunk. The counter includes this whole chunk. |
| Copier.StopsAtFirstEmptyRead | src/speed.c:135-144 | The first zero-byte read ends the loop normally after that read, and the output is all earlier chunks. |
| Copier.EmptyInput | src/speed.c:134-146 | Empty input ends the loop at once, with nothing counted and nothing written. |

## Left out

- Threads, the mutex and `IOCOUNTER_EXCLUSIVE_ACCESS`: concurrency is represented by the `Sampler.Meter` interleaving of counter increments and reporting iterations. The lock's total order is what makes every run such a sequence.
- `get_time_ms`, `gettimeofday` and `nanosleep`: clock readings are parameters of each iteration (`Sampler.Tick`), and the sleep has no effect on the modelled state.
- `long double` arithmetic: `time_to_seconds`, the average rate (total divided by elapsed seconds, including the division by zero on a zero elapsed time), the `%.03Lf` rounding of the scaled size, and the float-derived millisecond field `(time * 1000) % 1000`. These are floating-point numerics. The millisecond field is taken from the integer millisecond count instead.
- `sprintf`/`fprintf` text rendering, zero padding and the `\r\33[2K` line clearing: these are output through the C library. `Sampler.Render` covers only the unit choice and the time fields of the status line.
- `fread`, `fwrite` and `malloc`: these are represented by oracle results. `main` with its startup checks, exit codes 1 to 4, the final newline and the exit status 0 after a failed write is process plumbing and is not modelled.
- The unbounded repetition of the reporting loop: it is modelled as single steps and as finite runs of events.
- Window.MoveAndAppend: shifts a private array copy of the window and returns it instead of mutating the caller's array in place, so that its contract speaks of its result.
- The constant `KB` is declared in the source but never used. It is kept for completeness and plays no part in any property.

=== FILE: config.dfy ===
/** Size, buffer and cadence constants of the stream meter. */
module Config {

  /** Decimal magnitudes: the thresholds that choose a display unit. */
  const KB: nat := 1000 // declared alongside the others but never used
  const MB: nat := 1_000_000
  const GB: nat := 1_000_000_000
  const TB: nat := 1_000_000_000_000

  /** Binary magnitudes: the divisors that scale a displayed size. */
  const KiB: nat := 1024
  const MiB: nat := 1_048_576
  const GiB: nat := 1_073_741_824
  const TiB: nat := 1_099_511_627_776

  /** Capacity of the transfer buffer: the most bytes one read can deliver. */
  const BufferSize: nat := KiB * 256

  /** Nominal cadence of the reporting loop in milliseconds; it must divide 1000. */
  const UpdateIntervalMs: nat := 40

  /** Number of counter snapshots the sliding window holds. */
  const WindowCapacity: nat := 1000 / UpdateIntervalMs

  /**
   * The window has 25 slots, and 25 slots of 40 ms make 1000 ms. The oldest
   * snapshot is 24 cadences (960 ms) older than the newest one.
   */
  lemma WindowSpansOneSecond()
    ensures WindowCapacity == 25
    ensures WindowCapacity * UpdateIntervalMs == 1000
  {
  }

  /** The transfer buffer holds 256 KiB, a quarter of a MiB. */
  lemma BufferIsQuarterMiB()
    ensures BufferSize == 262_144
    ensures 4 * BufferSize == MiB
  {
  }
}

=== FILE: copier.dfy ===
/**
 * The copy loop, run sequentially: read a chunk, add its length to the shared
 * counter, write it, and stop after a zero-byte read or a short write. Reads
 * and writes are oracles: `chunks[i]` is what the i-th read delivered and
 * `written[i]` is the count the i-th write reported.
 */
module Copier {
  import opened UInt64
  import opened Config

  type Byte = x: int | 0 <= x < 256

  datatype Status = EndOfInput | WriteFailed

  /** The counter after the loop, the bytes it wrote, why it stopped, and how many reads it used. */
  datatype CopyRun = CopyRun(total: U64, output: seq<Byte>, status: Status, readsUsed: nat)

  /** Total length of a sequence of chunks. */
  function SumLen(chunks: seq<seq<Byte>>): nat
  {
    if |chunks| == 0 then 0 else |chunks[0]| + SumLen(chunks[1..])
  }

  /** The chunks joined end to end. */
  function Concat(chunks: seq<seq<Byte>>): seq<Byte>
  {
    if |chunks| == 0 then [] else chunks[0] + Concat(chunks[1..])
  }

  /** The input stream: everything read before the first zero-byte read. */
  function Stream(chunks: seq<seq<Byte>>): seq<Byte>
  {
    if |chunks| == 0 || |chunks[0]| == 0 then [] else chunks[0] + Stream(chunks[1..])
  }

  /**
   * What the C library guarantees of the oracles: a read fills at most the
   * buffer, and a write reports at most the count it was given.
   */
  predicate Oracles(chunks: seq<seq<Byte>>, written: seq<nat>)
  {
    && |written| == |chunks|
    && forall i :: 0 <= i < |chunks| ==> |chunks[i]| <= BufferSize && written[i] <= |chunks[i]|
  }

  /**
   * The loop from counter value `total`. Running out of chunks is end of input:
   * the read then delivers nothing, adds nothing and writes nothing. On a short
   * write the counter already includes the whole chunk.
   */
  function Copy(chunks: seq<seq<Byte>>, written: seq<nat>, total: U64): (r: CopyRun)
    requires Oracles(chunks, written)
    ensures r.readsUsed <= |chunks|
    ensures r.readsUsed == 0 <==> |chunks| == 0
    decreases |chunks|
  {
    if |chunks| == 0 then CopyRun(total, [], EndOfInput, 0)
    else
      var chunk := chunks[0];
      var counted := Add(total, |chunk|);
      var out := chunk[..written[0]];
      if written[0] != |chunk| then CopyRun(counted, out, WriteFailed, 1)
      else if |chunk| == 0 then CopyRun(counted, out, EndOfInput, 1)
      else
        var rest := Copy(chunks[1..], written[1..], counted);
        CopyRun(rest.total, out + rest.output, rest.status, rest.readsUsed + 1)
  }

  /** A non-empty read written in full is followed by the rest of the loop. */
  lemma CopyContinues(chunks: seq<seq<Byte>>, written: seq<nat>, total: U64)
    requires Oracles(chunks, written)
    requires |chunks| > 0 && 0 < |chunks[0]| == written[0]
    ensures Oracles(chunks[1..], written[1..])
    ensures var rest := Copy(chunks[1..], written[1..], Add(total, |chunks[0]|));
            Copy(chunks, written, total)
              == CopyRun(rest.total, chunks[0] + rest.output, rest.status, rest.readsUsed + 1)
  {
    assert chunks[0][..written[0]] == chunks[0];
  }

  /**
   * The counter changes only by adding each read's length: it ends as the
   * start value plus the lengths of the chunks read, modulo 2^64.
   */
  lemma {:induction false} CopyCounts(chunks: seq<seq<Byte>>, written: seq<nat>, total: U64)
    requires Oracles(chunks, written)
    ensures var r := Copy(chunks, written, total);
            r.total == (total + SumLen(chunks[..r.readsUsed])) % Limit
    decreases |chunks|
  {
    if |chunks| > 0 && 0 < |chunks[0]| == written[0] {
      var counted := Add(total, |chunks[0]|);
      CopyContinues(chunks, written, total);
      CopyCounts(chunks[1..], written[1..], counted);
      var rest := Copy(chunks[1..], written[1..], counted);
      PrefixSum(chunks, rest.readsUsed);
      ModAddAssoc(total, |chunks[0]|, SumLen(chunks[1..][..rest.readsUsed]));
    } else if |chunks| > 0 {
      assert chunks[..1] == [chunks[0]];
    }
  }

  /**
   * Why the loop stopped: it fails if and only if its last write was short;
   * otherwise its last read was empty or the input ran out. Every read before
   * the last one was non-empty and written in full.
   */
  lemma {:induction false} CopyStopReason(chunks: seq<seq<Byte>>, written: seq<nat>, total: U64)
    requires Oracles(chunks, written)
    ensures var r := Copy(chunks, written, total);
            && (r.status == WriteFailed
                <==> r.readsUsed > 0 && written[r.readsUsed - 1] < |chunks[r.readsUsed - 1]|)
            && (r.status == EndOfInput && r.readsUsed > 0 ==>
                  r.readsUsed == |chunks| || |chunks[r.readsUsed - 1]| == 0)
            && forall j :: 0 <= j < r.readsUsed - 1 ==> 0 < |chunks[j]| == written[j]
    decreases |chunks|
  {
    if |chunks| > 0 && written[0] == |chunks[0]| && |chunks[0]| > 0 {
      var counted := Add(total, |chunks[0]|);
      CopyContinues(chunks, written, total);
      CopyStopReason(chunks[1..], written[1..], counted);
      var r := Copy(chunks, written, total);
      forall j | 0 <= j < r.readsUsed - 1
        ensures 0 < |chunks[j]| == written[j]
      {
        if j > 0 {
          assert chunks[j] == chunks[1..][j - 1] && written[j] == written[1..][j - 1];
        }
      }
    }
  }

  /**
   * What the loop wrote: every chunk before its last read, then the part of
   * the last chunk that its write reported.
   */
  lemma {:induction false} CopyOutput(chunks: seq<seq<Byte>>, written: seq<nat>, total: U64)
    requires Oracles(chunks, written)
    ensures var r := Copy(chunks, written, total);
            && (r.readsUsed == 0 ==> r.output == [])
            && (r.readsUsed > 0 ==>
                  r.output == Concat(chunks[..r.readsUsed - 1]) + chunks[r.readsUsed - 1][..written[r.readsUsed - 1]])
    decreases |chunks|
  {
    if |chunks| > 0 && 0 < |chunks[0]| == written[0] {
      var counted := Add(total, |chunks[0]|);
      CopyContinues(chunks, written, total);
      CopyOutput(chunks[1..], written[1..], counted);
      var rest := Copy(chunks[1..], written[1..], counted);
      if rest.readsUsed == 0 {
        assert chunks[..0] == [];
        assert chunks[0][..written[0]] == chunks[0];
      } else {
        var m := rest.readsUsed;
        PrefixConcat(chunks, m - 1);
        assert chunks[1..][m - 1] == chunks[m] && written[1..][m - 1] == written[m];
        var before, partial := Concat(chunks[1..][..m - 1]), chunks[m][..written[m]];
        assert chunks[0] + (before + partial) == (chunks[0] + before) + partial;
      }
    } else if |chunks| > 0 {
      assert chunks[..0] == [];
    }
  }

  lemma PrefixSum(chunks: seq<seq<Byte>>, k: nat)
    requires k < |chunks|
    ensures SumLen(chunks[..k + 1]) == |chunks[0]| + SumLen(chunks[1..][..k])
  {
    assert chunks[..k + 1][1..] == chunks[1..][..k];
  }

  lemma ModAddAssoc(a: nat, b: nat, c: nat)
    ensures ((a + b) % Limit + c) % Limit == (a + b + c) % Limit
  {
  }

  lemma PrefixConcat(chunks: seq<seq<Byte>>, k: nat)
    requires k < |chunks|
    ensures Concat(chunks[..k + 1]) == chunks[0] + Concat(chunks[1..][..k])
  {
    assert chunks[..k + 1][1..] == chunks[1..][..k];
  }

  lemma {:induction false} PrefixSumAtMost(chunks: seq<seq<Byte>>, k: nat)
    requires k <= |chunks|
    ensures SumLen(chunks[..k]) <= SumLen(chunks)
    decreases k
  {
    if k > 0 {
      PrefixSum(chunks, k - 1);
      PrefixSumAtMost(chunks[1..], k - 1);
    }
  }

  /** Without overflow the counter never decreases: it grows by exactly the bytes read. */
  lemma CounterNeverDecreases(chunks: seq<seq<Byte>>, written: seq<nat>, total: U64)
    requires Oracles(chunks, written)
    requires total + SumLen(chunks) < Limit
    ensures var r := Copy(chunks, written, total);
            r.total == total + SumLen(chunks[..r.readsUsed]) && total <= r.total
  {
    var r := Copy(chunks, written, total);
    CopyCounts(chunks, written, total);
    PrefixSumAtMost(chunks, r.readsUsed);
  }

  /** Passthrough: when every write is complete, the output is exactly the input stream. */
  lemma {:induction false} Passthrough(chunks: seq<seq<Byte>>, written: seq<nat>, total: U64)
    requires Oracles(chunks, written)
    requires forall i :: 0 <= i < |chunks| ==> written[i] == |chunks[i]|
    ensures Copy(chunks, written, total).status == EndOfInput
    ensures Copy(chunks, written, total).output == Stream(chunks)
    decreases |chunks|
  {
    if |chunks| > 0 && |chunks[0]| > 0 {
      CopyContinues(chunks, written, total);
      Passthrough(chunks[1..], written[1..], Add(total, |chunks[0]|));
    }
  }

  /**
   * After a complete passthrough the counter has grown by exactly the length
   * of the input stream, modulo 2^64: the bytes counted are the bytes copied.
   */
  lemma {:induction false} PassthroughCounts(chunks: seq<seq<Byte>>, written: seq<nat>, total: U64)
    requires Oracles(chunks, written)
    requires forall i :: 0 <= i < |chunks| ==> written[i] == |chunks[i]|
    ensures Copy(chunks, written, total).total == (total + |Stream(chunks)|) % Limit
    decreases |chunks|
  {
    if |chunks| > 0 && |chunks[0]| > 0 {
      var counted := Add(total, |chunks[0]|);
      CopyContinues(chunks, written, total);
      PassthroughCounts(chunks[1..], written[1..], counted);
      ModAddAssoc(total, |chunks[0]|, |Stream(chunks[1..])|);
    }
  }

  lemma {:induction false} SumLenAppend(a: seq<seq<Byte>>, b: seq<seq<Byte>>)
    ensures SumLen(a + b) == SumLen(a) + SumLen(b)
    decreases |a|
  {
    if |a| > 0 {
      assert (a + b)[1..] == a[1..] + b;
      SumLenAppend(a[1..], b);
    } else {
      assert a + b == b;
    }
  }

  /** The loop stops at the first read that was empty or whose write was short. */
  lemma StopsAt(chunks: seq<seq<Byte>>, written: seq<nat>, total: U64, k: nat)
    requires Oracles(chunks, written)
    requires k < |chunks| && (|chunks[k]| == 0 || written[k] < |chunks[k]|)
    requires forall j :: 0 <= j < k ==> 0 < |chunks[j]| == written[j]
    ensures Copy(chunks, written, total).readsUsed == k + 1
  {
    CopyStopReason(chunks, written, total);
    var r := Copy(chunks, written, total);
    // reads before k all succeed in full and read k does not, so read k is the stopping one
    assert r.readsUsed - 1 == k;
  }

  /**
   * The first short write ends the loop: the output holds the earlier chunks
   * and the part of this one that was written, and the counter holds all of
   * this chunk.
   */
  lemma StopsAtFirstShortWrite(chunks: seq<seq<Byte>>, written: seq<nat>, total: U64, k: nat)
    requires Oracles(chunks, written)
    requires k < |chunks| && written[k] < |chunks[k]|
    requires forall j :: 0 <= j < k ==> 0 < |chunks[j]| == written[j]
    ensures var r := Copy(chunks, written, total);
            && r.status == WriteFailed
            && r.readsUsed == k + 1
            && r.output == Concat(chunks[..k]) + chunks[k][..written[k]]
            && r.total == (total + SumLen(chunks[..k]) + |chunks[k]|) % Limit
  {
    StopsAt(chunks, written, total, k);
    CopyStopReason(chunks, written, total);
    CopyOutput(chunks, written, total);
    CopyCounts(chunks, written, total);
    assert chunks[..k + 1] == chunks[..k] + [chunks[k]];
    SumLenAppend(chunks[..k], [chunks[k]]);
    assert SumLen([chunks[k]]) == |chunks[k]|;
  }

  /** The first zero-byte read ends the loop normally, with every earlier chunk written. */
  lemma StopsAtFirstEmptyRead(chunks: seq<seq<Byte>>, written: seq<nat>, total: U64, k: nat)
    requires Oracles(chunks, written)
    requires k < |chunks| && |chunks[k]| == 0
    requires forall j :: 0 <= j < k ==> 0 < |chunks[j]| == written[j]
    ensures var r := Copy(chunks, written, total);
            && r.status == EndOfInput
            && r.readsUsed == k + 1
            && r.output == Concat(chunks[..k])
  {
    StopsAt(chunks, written, total, k);
    CopyStopReason(chunks, written, total);
    CopyOutput(chunks, written, total);
    assert chunks[k][..written[k]] == [];
  }

  /** Empty input: the loop ends at once with nothing counted and nothing written. */
  lemma EmptyInput(total: U64)
    ensures Copy([], [], total) == CopyRun(total, [], EndOfInput, 0)
    ensures Copy([[]], [0], total) == CopyRun(total, [], EndOfInput, 1)
  {
  }
}

=== FILE: format.dfy ===
/**
 * The integer part of the status-line formatting: which unit a size is shown
 * in, what it is divided by, and how an elapsed time splits into fields.
 */
module Format {
  import Config

  /** Display units, from smallest to largest. */
  datatype Unit = KiB | MiB | GiB | TiB

  /** Position of a unit in the ladder KiB < MiB < GiB < TiB. */
  function Rank(u: Unit): nat
  {
    match u
    case KiB => 0
    case MiB => 1
    case GiB => 2
    case TiB => 3
  }

  /** The smallest size shown in `u`: a DECIMAL magnitude (none for KiB). */
  function Threshold(u: Unit): nat
  {
    match u
    case KiB => 0
    case MiB => Config.MB
    case GiB => Config.GB
    case TiB => Config.TB
  }

  function Pow(base: nat, exp: nat): nat
  {
    if exp == 0 then 1 else base * Pow(base, exp - 1)
  }

  /** The binary magnitudes are the first four powers of 1024. */
  lemma BinaryMagnitudesArePowers()
    ensures Pow(Config.KiB, 1) == Config.KiB
    ensures Pow(Config.KiB, 2) == Config.MiB
    ensures Pow(Config.KiB, 3) == Config.GiB
    ensures Pow(Config.KiB, 4) == Config.TiB
  {
    assert Pow(Config.KiB, 2) == Config.KiB * Pow(Config.KiB, 1);
    assert Pow(Config.KiB, 3) == Config.KiB * Pow(Config.KiB, 2);
    assert Pow(Config.KiB, 4) == Config.KiB * Pow(Config.KiB, 3);
  }

  /** The unit chosen for a size and the BINARY magnitude the size is divided by. */
  datatype Scale = Scale(unit: Unit, divisor: nat)

  /**
   * Unit selection of the size formatter: the largest unit whose decimal
   * threshold the size has reached, expressed with the binary divisor
   * 1024^(rank + 1).
   */
  function FormatSize(size: nat): (r: Scale)
    ensures Threshold(r.unit) <= size
    ensures forall u :: Rank(r.unit) < Rank(u) ==> size < Threshold(u)
    ensures r.divisor == Pow(Config.KiB, Rank(r.unit) + 1)
  {
    BinaryMagnitudesArePowers();
    if size < Config.MB then Scale(KiB, Config.KiB)
    else if size < Config.GB then Scale(MiB, Config.MiB)
    else if size < Config.TB then Scale(GiB, Config.GiB)
    else Scale(TiB, Config.TiB)
  }

  /** Exactly one unit fits a size: `u` is chosen if and only if size lies in its band. */
  lemma FormatSizeBands(size: nat, u: Unit)
    ensures FormatSize(size).unit == u
        <==> Threshold(u) <= size && forall v :: Rank(u) < Rank(v) ==> size < Threshold(v)
  {
  }

  /** A larger size never selects a smaller unit. */
  lemma FormatSizeMonotone(a: nat, b: nat)
    requires a <= b
    ensures Rank(FormatSize(a).unit) <= Rank(FormatSize(b).unit)
  {
  }

  /** The boundaries: 999,999 bytes are shown in KiB, 1,000,000 bytes in MiB, and so on. */
  lemma FormatSizeBoundaries()
    ensures FormatSize(999_999) == Scale(KiB, 1024)
    ensures FormatSize(1_000_000) == Scale(MiB, 1_048_576)
    ensures FormatSize(999_999_999).unit == MiB
    ensures FormatSize(1_000_000_000) == Scale(GiB, 1_073_741_824)
    ensures FormatSize(999_999_999_999).unit == GiB
    ensures FormatSize(1_000_000_000_000) == Scale(TiB, 1_099_511_627_776)
  {
  }

  /**
   * The decimal thresholds sit below the binary divisors, so the smallest size
   * of every unit above KiB is shown as a value below one (1,000,000 bytes is
   * 0.954 MiB).
   */
  lemma BandStartsBelowOne(u: Unit)
    requires u != KiB
    ensures FormatSize(Threshold(u)).unit == u
    ensures Threshold(u) < FormatSize(Threshold(u)).divisor
  {
  }

  /** An elapsed time as printed: hours, then minutes, seconds and milliseconds. */
  datatype Elapsed = Elapsed(hours: nat, minutes: nat, seconds: nat, millis: nat)

  /** The fields are in range for the `H:MM:SS.mmm` layout. */
  predicate Canonical(e: Elapsed)
  {
    e.minutes < 60 && e.seconds < 60 && e.millis < 1000
  }

  /** The milliseconds an elapsed time stands for. */
  function ToMillis(e: Elapsed): nat
  {
    (e.hours * 3600 + e.minutes * 60 + e.seconds) * 1000 + e.millis
  }

  /**
   * Splits an elapsed time in milliseconds: whole seconds into hours, minutes
   * and seconds, the remainder into the millisecond field.
   */
  function FormatTime(elapsedMs: nat): (r: Elapsed)
    ensures Canonical(r)
    ensures r.hours * 3600 + r.minutes * 60 + r.seconds == elapsedMs / 1000
    ensures ToMillis(r) == elapsedMs
  {
    var t := elapsedMs / 1000;
    Elapsed(t / 3600, (t % 3600) / 60, t % 60, elapsedMs % 1000)
  }

  /** The split is the only canonical one: formatting the value of a canonical time gives it back. */
  lemma FormatTimeUnique(e: Elapsed)
    requires Canonical(e)
    ensures FormatTime(ToMillis(e)) == e
  {
    var t := e.hours * 3600 + e.minutes * 60 + e.seconds;
    assert ToMillis(e) / 1000 == t;
    assert ToMillis(e) % 1000 == e.millis;
    assert t / 3600 == e.hours;
    assert t % 3600 == e.minutes * 60 + e.seconds;
    assert t % 60 == e.seconds;
  }

  /** 3,661.5 seconds read `1:01:01.500`. */
  lemma FormatTimeExample()
    ensures FormatTime(3_661_500) == Elapsed(1, 1, 1, 500)
  {
  }
}

=== FILE: sampler.dfy ===
/**
 * One iteration of the reporting loop, without its I/O: the counter snapshot
 * enters the sliding window (twice when the accumulated lost time exceeds the
 * cadence), the lost-time accumulator is updated, and the figures for the
 * status line are computed. Clock readings are parameters.
 */
module Sampler {
  import opened UInt64
  import opened Config
  import opened Window
  import Format

  /** The reporting loop's own state: the window and the lost-time accumulator. */
  datatype State = State(window: seq<U64>, timeLostMs: U64)

  /** The state the loop starts from: a window of zeros and nothing lost yet. */
  function Initial(): (s: State)
    ensures |s.window| == WindowCapacity
    ensures forall i :: 0 <= i < |s.window| ==> s.window[i] == 0
    ensures s.timeLostMs == 0
  {
    State(seq(WindowCapacity, _ => 0), 0)
  }

  /** The inputs of one iteration: the counter snapshot and the clock before and after the work. */
  datatype Tick = Tick(snapshot: U64, nowMs: U64, doneMs: U64)

  /** The integer figures the iteration reports: total, bytes over the window, elapsed time. */
  datatype Report = Report(total: U64, currentRate: U64, elapsedMs: U64)

  datatype StepResult = StepResult(next: State, report: Report)

  /** Whether this iteration advances the window a second time. */
  predicate Skips(s: State)
  {
    s.timeLostMs > UpdateIntervalMs
  }

  /**
   * One iteration. The window advances once with the snapshot; when more than
   * one cadence has been lost it advances again with the same snapshot and the
   * accumulator restarts from zero; then the iteration's own cost is added.
   */
  function Step(s: State, startTimeMs: U64, t: Tick): (r: StepResult)
    requires |s.window| == WindowCapacity
    ensures |r.next.window| == WindowCapacity
    ensures Skips(s) ==> r.next.window == s.window[2..] + [t.snapshot, t.snapshot]
    ensures !Skips(s) ==> r.next.window == s.window[1..] + [t.snapshot]
    ensures var kept := if Skips(s) then 0 else s.timeLostMs;
            t.nowMs <= t.doneMs && kept + (t.doneMs - t.nowMs) < Limit ==>
              r.next.timeLostMs == kept + (t.doneMs - t.nowMs)
    ensures r.report.total == t.snapshot
    ensures !Skips(s) ==> r.report.currentRate == Sub(t.snapshot, s.window[1])
    ensures Skips(s) ==> r.report.currentRate == Sub(t.snapshot, s.window[2])
    ensures startTimeMs <= t.nowMs ==> r.report.elapsedMs == t.nowMs - startTimeMs
  {
    var once := Advance(s.window, t.snapshot);
    var window := if Skips(s) then Advance(once, t.snapshot) else once;
    var kept: U64 := if Skips(s) then 0 else s.timeLostMs;
    var next := State(window, Add(kept, Sub(t.doneMs, t.nowMs)));
    StepResult(next, Report(t.snapshot, Sub(t.snapshot, window[0]), Sub(t.nowMs, startTimeMs)))
  }

  /** The snapshots one iteration appends to the window: one, or the same one twice on a skip. */
  function Appended(s: State, snapshot: U64): (r: seq<U64>)
    ensures |r| == (if Skips(s) then 2 else 1)
    ensures forall i :: 0 <= i < |r| ==> r[i] == snapshot
  {
    if Skips(s) then [snapshot, snapshot] else [snapshot]
  }

  /** An iteration is a FIFO append of the snapshots it takes. */
  lemma StepAppends(s: State, startTimeMs: U64, t: Tick)
    requires |s.window| == WindowCapacity
    ensures Step(s, startTimeMs, t).next.window == AdvanceAll(s.window, Appended(s, t.snapshot))
  {
    var once := Advance(s.window, t.snapshot);
    assert AdvanceAll(once, []) == once;
    if Skips(s) {
      assert [t.snapshot, t.snapshot][1..] == [t.snapshot];
      assert AdvanceAll(Advance(once, t.snapshot), []) == Advance(once, t.snapshot);
    }
  }

  /** The skip needs strictly more than one cadence lost: 40 ms does not skip, 41 ms does. */
  lemma SkipThreshold(window: seq<U64>, startTimeMs: U64, t: Tick)
    requires |window| == WindowCapacity
    ensures Step(State(window, 40), startTimeMs, t).next.window == Advance(window, t.snapshot)
    ensures Step(State(window, 41), startTimeMs, t).next.window
         == Advance(Advance(window, t.snapshot), t.snapshot)
  {
  }

  /**
   * For a stream of exactly `b` bytes per cadence, the current rate counts the
   * bytes of 24 cadences, not of the 25 that make one second: the window's
   * oldest entry after the shift is 24 snapshots behind the newest.
   */
  lemma RateCoversTwentyFourCadences(window: seq<U64>, timeLostMs: U64, startTimeMs: U64, t: Tick, b: nat)
    requires |window| == WindowCapacity && timeLostMs <= UpdateIntervalMs
    requires WindowCapacity * b < Limit
    requires forall i :: 0 <= i < |window| ==> window[i] == i * b
    requires t.snapshot == WindowCapacity * b
    ensures Step(State(window, timeLostMs), startTimeMs, t).report.currentRate == 24 * b
  {
  }

  /**
   * A wall clock that steps back by `d` ms during an iteration makes the
   * unsigned cost wrap. `kept` is the loss kept after this iteration's reset:
   * zero when it skips, the accumulated loss otherwise. When `d` is at most
   * `kept`, the accumulator only shrinks by `d`. When `d` is larger, it wraps
   * to `2^64 + kept - d`, and the next iteration skips exactly when that is
   * still above the cadence, that is, when `d < 2^64 - 40 + kept`.
   */
  lemma ClockStepBack(s: State, startTimeMs: U64, t: Tick)
    requires |s.window| == WindowCapacity && t.doneMs < t.nowMs
    ensures var kept := if Skips(s) then 0 else s.timeLostMs;
            (Skips(Step(s, startTimeMs, t).next))
              <==> (kept < t.nowMs - t.doneMs < Limit - UpdateIntervalMs + kept)
  {
  }

  /** The status line of an iteration: sizes scaled for display and the elapsed time split. */
  datatype StatusLine = StatusLine(total: Format.Scale, current: Format.Scale, elapsed: Format.Elapsed)

  /**
   * The figures of one iteration as the status line shows them: the total
   * and the current rate each in their display unit, and the elapsed time
   * split into fields.
   */
  function Render(report: Report): (line: StatusLine)
    ensures line.total.unit == Format.TiB <==> report.total >= TB
    ensures line.total.unit == Format.KiB <==> report.total < MB
    ensures line.current.unit == Format.TiB <==> report.currentRate >= TB
    ensures line.current.unit == Format.KiB <==> report.currentRate < MB
    ensures Format.Canonical(line.elapsed) && Format.ToMillis(line.elapsed) == report.elapsedMs
  {
    Format.FormatSizeBands(report.total, Format.TiB);
    Format.FormatSizeBands(report.total, Format.KiB);
    Format.FormatSizeBands(report.currentRate, Format.TiB);
    Format.FormatSizeBands(report.currentRate, Format.KiB);
    StatusLine(Format.FormatSize(report.total), Format.FormatSize(report.currentRate),
               Format.FormatTime(report.elapsedMs))
  }

  /*
   * The meter as a whole: the copier's counter and the reporting loop's state,
   * changed by an interleaving of counter increments and reporting iterations.
   * The mutex orders all counter accesses, so any run is such a sequence.
   */

  datatype Event = Copied(bytes: nat) | Sampled(nowMs: U64, doneMs: U64)

  datatype Meter = Meter(total: U64, sampler: State)

  /** A counter increment is one read, so it is at most a buffer's worth. */
  predicate ValidEvent(e: Event)
  {
    e.Copied? ==> e.bytes <= BufferSize
  }

  predicate ValidEvents(events: seq<Event>)
  {
    forall i :: 0 <= i < |events| ==> ValidEvent(events[i])
  }

  /** An increment adds to the counter; an iteration snapshots the counter into the window. */
  function Apply(m: Meter, startTimeMs: U64, e: Event): (r: Meter)
    requires |m.sampler.window| == WindowCapacity
    requires ValidEvent(e)
    ensures |r.sampler.window| == WindowCapacity
    ensures e.Copied? ==> r.sampler == m.sampler
    ensures e.Copied? && m.total + e.bytes < Limit ==> r.total == m.total + e.bytes
    ensures e.Sampled? ==> r.total == m.total
    ensures e.Sampled? ==> r.sampler.window == AdvanceAll(m.sampler.window, Appended(m.sampler, m.total))
  {
    match e
    case Copied(n) => m.(total := Add(m.total, n))
    case Sampled(nowMs, doneMs) =>
      StepAppends(m.sampler, startTimeMs, Tick(m.total, nowMs, doneMs));
      m.(sampler := Step(m.sampler, startTimeMs, Tick(m.total, nowMs, doneMs)).next)
  }

  function Run(m: Meter, startTimeMs: U64, events: seq<Event>): (r: Meter)
    requires |m.sampler.window| == WindowCapacity
    requires ValidEvents(events)
    ensures |r.sampler.window| == WindowCapacity
    decreases |events|
  {
    if |events| == 0 then m
    else Run(Apply(m, startTimeMs, events[0]), startTimeMs, events[1..])
  }

  /** Bytes added to the counter by a sequence of events. */
  function CopiedBytes(events: seq<Event>): nat
  {
    if |events| == 0 then 0
    else (if events[0].Copied? then events[0].bytes else 0) + CopiedBytes(events[1..])
  }

  /** Every snapshot a run appends to the window, in order, a skip contributing its snapshot twice. */
  function Snapshots(m: Meter, startTimeMs: U64, events: seq<Event>): seq<U64>
    requires |m.sampler.window| == WindowCapacity
    requires ValidEvents(events)
    decreases |events|
  {
    if |events| == 0 then []
    else
      (if events[0].Sampled? then Appended(m.sampler, m.total) else [])
      + Snapshots(Apply(m, startTimeMs, events[0]), startTimeMs, events[1..])
  }

  lemma ValidEventsTail(events: seq<Event>)
    requires |events| > 0 && ValidEvents(events)
    ensures ValidEvents(events[1..])
  {
    forall i | 0 <= i < |events[1..]|
      ensures ValidEvent(events[1..][i])
    {
      assert events[1..][i] == events[i + 1];
    }
  }

  /** After any run the window is its start contents advanced by every snapshot the run took. */
  lemma {:induction false} RunAppendsSnapshots(m: Meter, startTimeMs: U64, events: seq<Event>)
    requires |m.sampler.window| == WindowCapacity
    requires ValidEvents(events)
    ensures Run(m, startTimeMs, events).sampler.window
         == AdvanceAll(m.sampler.window, Snapshots(m, startTimeMs, events))
    decreases |events|
  {
    if |events| > 0 {
      ValidEventsTail(events);
      var next := Apply(m, startTimeMs, events[0]);
      RunAppendsSnapshots(next, startTimeMs, events[1..]);
      var head := if events[0].Sampled? then Appended(m.sampler, m.total) else [];
      AdvanceAllConcat(m.sampler.window, head, Snapshots(next, startTimeMs, events[1..]));
      if events[0].Sampled? {
        StepAppends(m.sampler, startTimeMs, Tick(m.total, events[0].nowMs, events[0].doneMs));
      }
    }
  }

  /**
   * Once a run has taken at least 25 snapshots, the window holds exactly the
   * last 25 of them, oldest first.
   */
  lemma RunWindowHoldsLastSnapshots(m: Meter, startTimeMs: U64, events: seq<Event>)
    requires |m.sampler.window| == WindowCapacity
    requires ValidEvents(events)
    requires |Snapshots(m, startTimeMs, events)| >= WindowCapacity
    ensures var taken := Snapshots(m, startTimeMs, events);
            Run(m, startTimeMs, events).sampler.window == taken[|taken| - WindowCapacity..]
  {
    RunAppendsSnapshots(m, startTimeMs, events);
    WindowHoldsLastSnapshots(m.sampler.window, Snapshots(m, startTimeMs, events));
  }

  /**
   * The window is sorted oldest-first and no entry exceeds the current counter,
   * so subtracting the oldest entry from a fresh snapshot never wraps.
   */
  predicate WindowInvariant(m: Meter)
  {
    && |m.sampler.window| == WindowCapacity
    && Sorted(m.sampler.window)
    && AllAtMost(m.sampler.window, m.total)
  }

  /** The window of zeros satisfies the invariant whatever the counter already holds. */
  lemma InitialInvariant(total: U64)
    ensures WindowInvariant(Meter(total, Initial()))
  {
  }

  lemma ApplyKeepsInvariant(m: Meter, startTimeMs: U64, e: Event)
    requires WindowInvariant(m)
    requires ValidEvent(e)
    requires e.Copied? ==> m.total + e.bytes < Limit
    ensures WindowInvariant(Apply(m, startTimeMs, e))
  {
    if e.Sampled? {
      var once := Advance(m.sampler.window, m.total);
      AdvanceKeepsOrder(m.sampler.window, m.total);
      if Skips(m.sampler) {
        AdvanceKeepsOrder(once, m.total);
      }
    }
  }

  /**
   * Along any interleaving whose increments do not overflow the counter, the
   * counter only grows by the bytes copied and the window invariant holds.
   */
  lemma {:induction false} RunKeepsInvariant(m: Meter, startTimeMs: U64, events: seq<Event>)
    requires WindowInvariant(m)
    requires ValidEvents(events)
    requires m.total + CopiedBytes(events) < Limit
    ensures WindowInvariant(Run(m, startTimeMs, events))
    ensures Run(m, startTimeMs, events).total == m.total + CopiedBytes(events)
    decreases |events|
  {
    if |events| > 0 {
      ApplyKeepsInvariant(m, startTimeMs, events[0]);
      var next := Apply(m, startTimeMs, events[0]);
      ValidEventsTail(events);
      RunKeepsInvariant(next, startTimeMs, events[1..]);
    }
  }

  /**
   * Under the invariant the "current" rate is the exact number of bytes
   * counted since the oldest snapshot left in the window, never a wrapped value.
   */
  lemma CurrentRateNeverWraps(m: Meter, startTimeMs: U64, nowMs: U64, doneMs: U64)
    requires WindowInvariant(m)
    ensures var r := Step(m.sampler, startTimeMs, Tick(m.total, nowMs, doneMs));
            r.report.currentRate == m.total - r.next.window[0] && r.report.currentRate <= m.total
  {
    ApplyKeepsInvariant(m, startTimeMs, Sampled(nowMs, doneMs));
  }

  /**
   * From start-up, every iteration of any interleaving without counter overflow
   * reports an exact, non-wrapped current rate.
   */
  lemma NoUnderflowFromStart(startTimeMs: U64, events: seq<Event>, nowMs: U64, doneMs: U64)
    requires ValidEvents(events)
    requires CopiedBytes(events) < Limit
    ensures var m := Run(Meter(0, Initial()), startTimeMs, events);
            var r := Step(m.sampler, startTimeMs, Tick(m.total, nowMs, doneMs));
            r.report.currentRate == m.total - r.next.window[0]
  {
    InitialInvariant(0);
    RunKeepsInvariant(Meter(0, Initial()), startTimeMs, events);
    var m := Run(Meter(0, Initial()), startTimeMs, events);
    CurrentRateNeverWraps(m, startTimeMs, nowMs, doneMs);
  }
}

=== FILE: uint64.dfy ===
/** The C type `unsigned long long`: arithmetic modulo 2^64. */
module UInt64 {

  const Limit: int := 0x1_0000_0000_0000_0000

  type U64 = x: int | 0 <= x < 0x1_0000_0000_0000_0000

  /** Unsigned addition: exact unless the sum passes 2^64, then it wraps once. */
  function Add(a: U64, b: U64): (r: U64)
    ensures a + b < Limit ==> r == a + b
    ensures Limit <= a + b ==> r == a + b - Limit
  {
    (a + b) % Limit
  }

  /** Unsigned subtraction: exact when `b <= a`, otherwise it wraps to a huge value. */
  function Sub(a: U64, b: U64): (r: U64)
    ensures b <= a ==> r == a - b
    ensures a < b ==> r == a - b + Limit
  {
    (a - b) % Limit
  }

  /** Subtraction undoes addition, wrap-around included. */
  lemma SubUndoesAdd(a: U64, b: U64)
    ensures Sub(Add(a, b), b) == a
    ensures Add(Sub(a, b), b) == a
  {
  }
}

=== FILE: window.dfy ===
/**
 * The sliding window of counter snapshots: a fixed-capacity FIFO that is
 * shifted left by one slot per append.
 */
module Window {
  import opened UInt64

  /** Reference definition of one append: the oldest snapshot leaves, the new one enters last. */
  function Advance(window: seq<U64>, snapshot: U64): (r: seq<U64>)
    requires |window| >= 1
    ensures |r| == |window|
  {
    window[1..] + [snapshot]
  }

  /**
   * The in-place shift of the C function `move_and_append`, run on a private
   * copy of the window: every slot takes its right neighbour's value and the
   * last slot takes the new snapshot. A window of length zero is excluded
   * because its loop bound `array_size - 1` wraps around for it.
   */
  method MoveAndAppend(window: seq<U64>, toAppend: U64) returns (shifted: seq<U64>)
    requires |window| >= 1
    ensures |shifted| == |window|
    ensures forall i :: 0 <= i < |window| - 1 ==> shifted[i] == window[i + 1]
    ensures shifted[|window| - 1] == toAppend
    ensures shifted == Advance(window, toAppend)
  {
    var a := new U64[|window|](k requires 0 <= k < |window| => window[k]);
    var i := 0;
    while i < a.Length - 1
      invariant 0 <= i <= a.Length - 1
      invariant forall j :: 0 <= j < i ==> a[j] == window[j + 1]
      invariant forall j :: i <= j < a.Length ==> a[j] == window[j]
    {
      a[i] := a[i + 1];
      i := i + 1;
    }
    a[a.Length - 1] := toAppend;
    shifted := a[..];
  }

  /** The window after appending each of `snapshots` in turn. */
  function AdvanceAll(window: seq<U64>, snapshots: seq<U64>): (r: seq<U64>)
    requires |window| >= 1
    ensures |r| == |window|
    decreases |snapshots|
  {
    if |snapshots| == 0 then window
    else AdvanceAll(Advance(window, snapshots[0]), snapshots[1..])
  }

  /** Appending two histories one after the other is appending their concatenation. */
  lemma {:induction false} AdvanceAllConcat(window: seq<U64>, first: seq<U64>, second: seq<U64>)
    requires |window| >= 1
    ensures AdvanceAll(window, first + second) == AdvanceAll(AdvanceAll(window, first), second)
    decreases |first|
  {
    if |first| == 0 {
      assert first + second == second;
    } else {
      assert (first + second)[0] == first[0];
      assert (first + second)[1..] == first[1..] + second;
      AdvanceAllConcat(Advance(window, first[0]), first[1..], second);
    }
  }

  /** FIFO order: the window is always the newest `|window|` values of the whole history. */
  lemma {:induction false} AdvanceAllKeepsNewest(window: seq<U64>, snapshots: seq<U64>)
    requires |window| >= 1
    ensures AdvanceAll(window, snapshots) == (window + snapshots)[|snapshots|..]
    decreases |snapshots|
  {
    if |snapshots| > 0 {
      var next := Advance(window, snapshots[0]);
      AdvanceAllKeepsNewest(next, snapshots[1..]);
      assert next + snapshots[1..] == (window + snapshots)[1..];
      assert (next + snapshots[1..])[|snapshots| - 1..] == (window + snapshots)[|snapshots|..];
    }
  }

  /** Once at least `|window|` snapshots have been appended, the initial contents are gone. */
  lemma WindowHoldsLastSnapshots(window: seq<U64>, snapshots: seq<U64>)
    requires |window| >= 1
    requires |snapshots| >= |window|
    ensures AdvanceAll(window, snapshots) == snapshots[|snapshots| - |window|..]
  {
    AdvanceAllKeepsNewest(window, snapshots);
    assert (window + snapshots)[|snapshots|..] == snapshots[|snapshots| - |window|..];
  }

  /** Snapshots in non-decreasing order, oldest first. */
  predicate Sorted(window: seq<U64>)
  {
    forall i, j :: 0 <= i <= j < |window| ==> window[i] <= window[j]
  }

  /** No snapshot exceeds `bound`. */
  predicate AllAtMost(window: seq<U64>, bound: U64)
  {
    forall i :: 0 <= i < |window| ==> window[i] <= bound
  }

  /**
   * Appending a value no smaller than anything in a sorted window keeps it
   * sorted, and that value then bounds every entry.
   */
  lemma AdvanceKeepsOrder(window: seq<U64>, snapshot: U64)
    requires |window| >= 1
    requires Sorted(window) && AllAtMost(window, snapshot)
    ensures Sorted(Advance(window, snapshot))
    ensures AllAtMost(Advance(window, snapshot), snapshot)
  {
  }
}
